=== FILE: README.md ===
# sarfetcher core in Dafny

sarfetcher plans which Sentinel-1 radar acquisitions to download so that
together they cover a search area, and converts each one into an RGB
composite. This project models the parts of that program that are pure
logic and proves properties of them:

- **Coverage selection** (`coverage.dfy`, module `Coverage`): the greedy
  loop of the `fetch` command. Starting from the search area, it repeatedly
  asks the image catalog for the most recent image that meets the uncovered
  area and has not been returned before. It records the image's uuid as
  seen. It keeps the image only if subtracting its footprint shrinks the
  uncovered area by at least the minimum gain. It stops once the uncovered
  area is at most `target` or no image qualifies. Geometry is a grid:
  - a region is a finite set of cells;
  - its area is the number of cells;
  - difference is set difference;
  - two regions intersect when they share a cell.

  `target` and the 0.01-square-degree progress guard (`minGain`) are cell
  counts. The database query is the pure function `Query` over the catalog
  as a sequence of rows.
- **Feed entry parsing** (`entries.dfy`, module `Entries`, on top of the
  Python dictionary model in `dicts.dfy`, module `Dicts`): `parse_entry`
  builds a dictionary that starts with the title, then writes the date,
  string and integer fields in that order, so later writes win. Python
  dictionaries keep first-insertion order, and the model keeps it too.
  Date and integer parsing are caller-supplied functions; a parser that
  rejects its text stands for the exception the source raises.
- **Directory reconciliation** (`reconcile.dfy`, module `Reconcile`): the
  names removed after fetching are the stems (text before the first `.`) of
  the regular files in the destination, minus the uuids selected for
  fetching.
- **Linear channels** (`pixels.dfy`, module `Pixels`): `process_band`
  clamps `band * gain` to `[0, clip]` and multiplies by the integer factor
  `255 // clip`. The red channel is the VH band with clip 200 and the blue
  channel is the VV band with clip 250. A band is a sequence of rows of
  integer pixels.

`wrappers.dfy` (module `Wrappers`) holds the `Option` and `Result` types.

Three details of the code shape the model:
- `process_band` multiplies the clamped value by the integer `255 // clip`.
  That factor is 1 for the clips 200 and 250 the channels use. So the
  linear channels are just the clamped values, and 100 stays 100
  (`Pixels.HundredPassesThrough`).
- `fetch` does not reject a `target` of zero or below, and neither does
  `Coverage.Fetch`.
- Every uuid the query returns goes into `seen` before the progress test.
  There is no separate set of skipped candidates: `to_fetch` is a subset of
  `seen`.

## Model

| member | source | states |
|---|---|---|
| Coverage.Query | sarfetcher/main.py:138-147 | Returns nothing exactly when no catalog image is both unseen and meeting the area. Otherwise it returns a catalog image that is unseen, meets the area, and has the latest start date among all such images. |
| Coverage.Consider | sarfetcher/main.py:149-155 | The candidate's uuid is always added to `seen`, and the area never grows. If the footprint removes fewer than `minGain` cells, the area, `to_fetch` and the chosen list are unchanged. Otherwise the uuid enters `to_fetch`, the area becomes `area - footprint`, the area drops by at least `minGain`, and the accepted footprint is disjoint from the new area. `to_fetch ⊆ seen` is preserved. |
| Coverage.ConsiderKeepsInvariant | sarfetcher/main.py:137-155 | One loop iteration on a query result keeps the loop invariant. The invariant has these parts. The area is the search area minus the accepted footprints. `to_fetch` is the set of accepted uuids, and `to_fetch ⊆ seen ⊆` catalog uuids. Accepted uuids are distinct. Each acceptance on its own removed at least `minGain` cells from what remained before it. Accepted images are in non-increasing start-date order. Each accepted image is at least as recent as every row the query could still return. When an image was accepted, every more recent row meeting the then-remaining area had already been returned. Every acceptance happened while the remaining area exceeded `target`. Every seen but unaccepted uuid belongs to a row meeting the area in fewer than `minGain` cells. With unique catalog uuids, at each acceptance every more recent row failed the progress guard on the area that remained. |
| Coverage.RecencyStep | sarfetcher/main.py:138-155 | One iteration keeps the recency parts of the invariant. A row still eligible after the step was eligible before it, and the query returned the most recent eligible row. So a newly accepted image is no older than any earlier one, and no more recent row meeting the area was passed over. |
| Coverage.GainStep | sarfetcher/main.py:150-155 | Accepting an image that removes at least `minGain` cells from the remaining area extends the record that every acceptance removed at least `minGain` cells. |
| Coverage.OlderAloneIsNotGreedy | sarfetcher/main.py:138-155 | Take two images over the same cell, start dates 2 and 1, with the older stored second. A final state that accepted only the older one, leaving the newer unreturned, breaks the newest-first part of the invariant. |
| Coverage.AboveTargetStep | sarfetcher/main.py:137-155 | An acceptance made while the area exceeds `target` keeps the record that every acceptance happened above the target. |
| Coverage.RejectedStep | sarfetcher/main.py:149-155 | A rejected candidate meets the area in fewer than `minGain` cells. An acceptance only shrinks the area, so every earlier rejection stays justified. |
| Coverage.RejectingEnoughGainIsNotFetch | sarfetcher/main.py:150-155 | Take one image over the single cell of the search area, with a minimum gain of one cell. A state that saw it without accepting it breaks the rejection clause of the invariant. |
| Coverage.AcceptingAtTargetIsNotFetch | sarfetcher/main.py:137 | Take two one-cell images over a two-cell area with target 1. Accepting both breaks the above-target clause, because the second acceptance would happen with one cell left. |
| Coverage.NewerFailedAtAccept | sarfetcher/main.py:138-155 | With unique catalog uuids, take an image the query returns. Every more recent row either misses the area or meets it in fewer than `minGain` cells. Such a row was passed over only because it had been returned before: either it was accepted and its footprint is covered, or the progress guard turned it down. |
| Coverage.NewerFailedStep | sarfetcher/main.py:138-155 | One iteration keeps the record that, at every acceptance, each more recent row failed the progress guard on the area that remained. |
| Coverage.SkippingEnoughGainIsNotFetch | sarfetcher/main.py:138-155 | Take a newer one-cell image and an older two-cell image over a two-cell area, with a minimum gain of one cell. A state that accepted only the older one passed over a newer image that would have removed a cell. That breaks the newer-failed-guard clause. |
| Coverage.AcceptKeepsInvariant | sarfetcher/main.py:154-155 | Accepting an unseen catalog image that removes at least `minGain` cells keeps the loop invariant. |
| Coverage.ConsiderProgress | sarfetcher/main.py:143-149 | Each iteration adds one new catalog uuid to `seen`, so the number of unseen catalog uuids strictly drops. This is the loop's termination measure. |
| Coverage.Fetch | sarfetcher/main.py:118-155 | On exit, either the area is at most `target` or the query finds no candidate. The final area is inside the search area and equals it minus the accepted footprints, and each accepted footprint is disjoint from it. `to_fetch ⊆ seen ⊆` catalog uuids, and the accepted uuids are distinct. The number of iterations equals the number of distinct uuids seen, which is at most the catalog size. Each accepted image removed at least `minGain` cells from the area that remained before it, so in total at least `minGain` per image. Selection is newest first: the accepted images are in non-increasing start-date order. No accepted image is older than a row the query could still return. No more recent row meeting the area that remained at an acceptance was left unreturned. Every image was accepted while the area remaining before it still exceeded `target`. Every uuid seen but not accepted belongs to a catalog row that meets the final area in fewer than `minGain` cells, so it was turned down by the progress guard and would still be. When the catalog's uuids are unique, at each acceptance every more recent catalog row either missed the area that remained or met it in fewer than `minGain` cells. So no newer image that would have passed the progress guard was passed over. If the search area is already at most `target`, nothing is examined. |
| Coverage.CatalogUuidsBound | sarfetcher/main.py:143-149 | The catalog holds at most as many distinct uuids as rows. So the loop, which sees a fresh uuid every iteration, runs at most once per row. |
| Dicts.Put | sarfetcher/main.py:34 | Assigning `d[k] = v` keeps the size when `k` is present and grows it by one otherwise. |
| Dicts.PutAll | sarfetcher/main.py:33-40 | The three assignment loops as one run of `d[k] = v`. The result is never shorter than the start and grows by at most one entry per write. Values and keys are stated by `PutAllLast`, `PutAllUnwritten` and `PutAllKeys`. |
| Dicts.GetPresent | sarfetcher/main.py:31-40 | A key reads back a value exactly when it is one of the dictionary's keys. |
| Dicts.PutGet | sarfetcher/main.py:34 | After `d[k] = v`, `k` reads `v` and every other key reads as before. |
| Dicts.PutKeys | sarfetcher/main.py:34 | `d[k] = v` adds `k` to the keys and leaves the first key first. |
| Dicts.PutUnique | sarfetcher/main.py:34 | `d[k] = v` keeps the keys unique: overwriting never duplicates a key. |
| Dicts.PutAllLast | sarfetcher/main.py:33-40 | After a run of assignments, a written key holds the value of its last write. |
| Dicts.PutAllUnwritten | sarfetcher/main.py:33-40 | A run of assignments leaves every key it never writes as it was. |
| Dicts.PutAllConcat | sarfetcher/main.py:33-40 | Running two lists of assignments one after the other is the same as running their concatenation. |
| Dicts.PutAllKeys | sarfetcher/main.py:33-40 | A run of assignments adds exactly the written keys and leaves the first key first. |
| Dicts.PutAllUnique | sarfetcher/main.py:33-40 | A run of assignments keeps the keys unique. |
| Entries.FieldWrites | sarfetcher/main.py:33-40 | Succeeds exactly when every field's content parses, yielding one write per field in order, under the field's name. Otherwise it fails with the first field that does not parse. |
| Entries.ParseField | sarfetcher/main.py:34-40 | A date or integer field's content fails exactly when its parser rejects it, and otherwise yields an instant or a number. A string field's content is stored as text unchanged. |
| Entries.Writes | sarfetcher/main.py:33-40 | A successful run writes exactly one entry per date, string and integer field. An integer error is reported only when every date parsed. |
| Entries.WritesOrder | sarfetcher/main.py:33-40 | The successful writes carry the field names in loop order: the date fields, then the string fields, then the integer fields. |
| Entries.ParseEntry | sarfetcher/main.py:30-42 | A dictionary it builds always has `title` as its first key, whatever the fields are called. Its values and errors are stated by the `ParseEntry…` lemmas below. |
| Entries.ParseEntryOutcome | sarfetcher/main.py:30-42 | `parse_entry` fails exactly when some date or integer field does not parse. The error names the first bad date, or, when all dates parse, the first bad integer. |
| Entries.WritesKeys | sarfetcher/main.py:33-40 | The names written are exactly the names of the date, string and integer fields. |
| Entries.ParseEntryRuns | sarfetcher/main.py:30-42 | A successful result is the one-entry title dictionary updated by the date writes, then the string writes, then the integer writes. |
| Entries.ParseEntryKeys | sarfetcher/main.py:30-42 | A successful result's first key is `title`, its keys are unique, and its keys are `title` plus the names of all fields. |
| Entries.ParseEntryTitle | sarfetcher/main.py:31 | The title survives when no field is named `title`. |
| Entries.ParseEntryInt | sarfetcher/main.py:39-40 | An integer field holds its parsed value unless a later integer field has the same name. |
| Entries.ParseEntryStr | sarfetcher/main.py:36-40 | A string field holds its text unless a later string field or any integer field has the same name. |
| Entries.ParseEntryDate | sarfetcher/main.py:33-40 | A date field holds its parsed instant unless a later date field, or any string or integer field, has the same name. |
| Reconcile.Stem | sarfetcher/main.py:192 | The stem is a prefix of the name, contains no `.`, and is followed by a `.` when it is shorter than the name. So it is the text before the first `.`. |
| Reconcile.ExistingStems | sarfetcher/main.py:191-195 | The `existing` set: a name is in it exactly when it is the stem of some regular file in the listing. No stem contains a `.`. |
| Reconcile.StaleStems | sarfetcher/main.py:191-196 | A name is targeted for removal exactly when it is the stem of some regular file in the listing and is not in `to_fetch`. So no `to_fetch` uuid is ever targeted. |
| Reconcile.StemOfOutputName | sarfetcher/main.py:164 | The output file `uuid.tif` has the uuid as its stem when the uuid has no `.`. |
| Reconcile.OutputFileFate | sarfetcher/main.py:164-196 | When a uuid's output file `uuid.tif` is listed, the uuid is targeted exactly when it is not in `to_fetch`. |
| Reconcile.DirectoriesIgnored | sarfetcher/main.py:191-196 | A stem that only directories carry is never targeted. |
| Reconcile.StaleStemIsNotAFile | sarfetcher/main.py:196-197 | With a stale regular file `old.tif`, the name removed is `old`, which is not a name in the directory. |
| Reconcile.StaleFiles | sarfetcher/main.py:191-197 | The corrected removal set: a name is removed exactly when it is a listed regular file whose stem is not in `to_fetch`. Every removed name's stem is a stale stem. |
| Reconcile.StaleFilesCoverStaleStems | sarfetcher/main.py:191-197 | The stems of the corrected removal set are exactly the stale stems. |
| Pixels.FloorDiv | sarfetcher/convert.py:18 | Python's `//`: for a positive divisor, `q*b <= a < q*b + b`; for a negative one, `q*b >= a > q*b + b`. |
| Pixels.Clip | sarfetcher/convert.py:18 | numpy's `clip`. When `lo <= hi` the result lies in `[lo, hi]`, and a value already in range is unchanged. When `lo > hi` the result is `hi`. |
| Pixels.ProcessBand | sarfetcher/convert.py:17-18 | The output has the band's shape, and each output pixel is the pixel function of the input pixel at the same position. |
| Pixels.ProcessPixel | sarfetcher/convert.py:18 | One pixel of `process_band`. For a positive clip the result lies in `[0, clip * (255 // clip)]`, and that bound is at most 255. |
| Pixels.PixelNonPositive | sarfetcher/convert.py:18 | A pixel with `band * gain <= 0` becomes 0. |
| Pixels.PixelMonotone | sarfetcher/convert.py:18 | For a non-negative gain and a positive clip, the output never decreases as the input grows. |
| Pixels.PixelLargeClip | sarfetcher/convert.py:18 | A clip above 255 makes the factor 0, so every pixel becomes 0. |
| Pixels.PixelFactorOne | sarfetcher/convert.py:18 | For a clip in `[128, 255]` the factor is 1. The output is the clamped value, and an in-range value passes through unchanged. |
| Pixels.ZeroBand | sarfetcher/convert.py:18 | For a positive clip, an all-zero band gives an all-zero result. |
| Pixels.BandRange | sarfetcher/convert.py:18 | For a positive clip, every pixel of a processed band lies in `[0, clip * (255 // clip)]`, which is at most 255. |
| Pixels.BandMonotone | sarfetcher/convert.py:18 | For a non-negative gain, a band that is pixelwise larger gives a pixelwise larger result. |
| Pixels.BandLargeClip | sarfetcher/convert.py:18 | A clip above 255 turns every band into zeros. |
| Pixels.Red | sarfetcher/convert.py:33 | The red channel has the VH band's shape, and every pixel lies in `[0, 200]`. |
| Pixels.Blue | sarfetcher/convert.py:35 | The blue channel has the VV band's shape, and every pixel lies in `[0, 250]`. |
| Pixels.RedIsClamp | sarfetcher/convert.py:33 | The red channel has the VH band's shape, and each pixel is the VH value clamped to `[0, 200]`. |
| Pixels.BlueIsClamp | sarfetcher/convert.py:35 | The blue channel has the VV band's shape, and each pixel is the VV value clamped to `[0, 250]`. |
| Pixels.HundredPassesThrough | sarfetcher/convert.py:33-35 | A one-pixel band of value 100 stays 100 in both the red and the blue channel. |

## Left out

- Catalog search, pagination, product download and metadata import (`search`, `download_file`, `import_`): network I/O.
- The command-line wiring, configuration loading, the search-area lookup, destination-directory checks, temporary directories, zip extraction, the "file already exists" skip and the per-uuid conversion call: filesystem and process plumbing.
- The `os.listdir`, `path.isfile` and `os.remove` calls themselves. The listing is an input (`Reconcile.Listing`), and only the set of names to remove is computed.
- The database schema and `get_db` (which ignores its `url` argument): persistence only. A row with a NULL geometry never matches the intersection filter; here it is a row with an empty footprint.
- Packaging metadata.
- The green channel (`log_contrast` of `vv / vh`): floating-point `log`, `nan_to_num` and a division by the array maximum, which cannot be modelled faithfully over integers.
- GDAL dataset handling, metadata copying, the warp to Web Mercator and the output encoding: calls into a foreign raster library.
- Real planar geometry. Shapely and PostGIS polygons are replaced by finite sets of grid cells, so area and difference are exact. How many cells make 0.01 square degrees depends on the grid, so it is the parameter `minGain`.
- Pixels.ZeroBand: stated for a positive clip only. With a negative clip numpy clamps every pixel to the clip, and the floored factor is negative, so zero pixels do not stay zero. The program only passes the clips 200 and 250.
- Coverage.Fetch: the clause saying no newer image that would pass the progress guard was passed over is promised only for catalogs whose uuids are unique. The images table's primary key guarantees that, but the schema is not part of this model. With a repeated uuid, the `seen` filter can hide one row behind another row of the same uuid.
- Coverage.Query: the SQL ordering does not say which of several images with the same latest start date comes first. The model picks the earliest in catalog order, which is one of the orders the database may use.
- Pixels.ProcessBand: `band * gain` is computed on unbounded integers. numpy's fixed-width pixel arithmetic could wrap for a large gain, but the source only uses gain 1, where nothing wraps.
- Pixels.ProcessBand: a clip of 0 is excluded by its precondition. The source raises a division-by-zero error there and produces no band.
- Entries.ParseEntryOutcome: malformed entries are outside the model. `parse_entry` raises `KeyError` when an entry lacks `title`, `date`, `str` or `int`, or a field lacks `name` or `content`. `FeedEntry` always has all of these, so those exceptions cannot arise.
- Entries.ParseEntryOutcome: which exception the source raises is abstracted to the field that failed to parse. The date and integer parsers are opaque caller-supplied functions.

## Findings

| source | as written | input that shows it | evidently intended | confidence | as-written member | corrected member |
|---|---|---|---|---|---|---|
| sarfetcher/main.py:196-197 | removes `path.join(dest_path, filename)` where `filename` is the stem, with the `.tif` dropped | a destination directory holding the regular file `old.tif` while `to_fetch` is empty: the stale stem is `old`, and removing `dest_path/old` fails because no such file exists, so `old.tif` is never deleted | remove the stale files themselves (`old.tif`), i.e. every regular file whose stem is not in `to_fetch` | high; not executed | Reconcile.StaleStemIsNotAFile | Reconcile.StaleFiles |

=== FILE: coverage.dfy ===
/**
 * The greedy coverage selection of the `fetch` command.
 *
 * Planar geometry is abstracted to a grid: a region is a finite set of grid
 * cells, its area is the number of cells, the difference of two regions is set
 * difference and two regions intersect when they share a cell. The search-area
 * threshold `target` and the minimum-progress guard (0.01 square degrees in
 * the source) are expressed as cell counts.
 */
module Coverage {
  import opened Wrappers

  /** One grid cell. */
  datatype Cell = Cell(col: int, row: int)

  type Region = set<Cell>

  type Uuid = string

  /** One row of the images table: its uuid, acquisition start and footprint. */
  datatype Image = Image(uuid: Uuid, startDate: int, footprint: Region)

  /** The images table, in storage order. */
  type Catalog = seq<Image>

  /** The working state of one selection run. */
  datatype Selection = Selection(
    area: Region,          // the part of the search area still uncovered
    seen: set<Uuid>,       // every uuid the query has returned so far
    toFetch: set<Uuid>,    // uuids of the accepted images
    chosen: seq<Image>     // the accepted images, in the order they were accepted
  )

  /** Every uuid that occurs in the catalog. */
  function CatalogUuids(catalog: Catalog): set<Uuid>
  {
    set i | 0 <= i < |catalog| :: catalog[i].uuid
  }

  /** The uuids of a list of images. */
  function UuidsOf(images: seq<Image>): set<Uuid>
  {
    set i | 0 <= i < |images| :: images[i].uuid
  }

  /** The union of the footprints of a list of images. */
  function Covered(images: seq<Image>): Region
  {
    if |images| == 0 then {} else Covered(images[..|images| - 1]) + images[|images| - 1].footprint
  }

  /** The filter of the query: not yet returned, and its footprint meets the area. */
  predicate Eligible(img: Image, area: Region, seen: set<Uuid>)
  {
    img.uuid !in seen && img.footprint * area != {}
  }

  /**
   * The database query of the selection loop: the eligible image with the
   * latest start date. Among images with equal start dates the one stored
   * first is returned.
   */
  function Query(catalog: Catalog, area: Region, seen: set<Uuid>): (r: Option<Image>)
    ensures r.None? <==> forall i :: 0 <= i < |catalog| ==> !Eligible(catalog[i], area, seen)
    ensures r.Some? ==> r.value in catalog && Eligible(r.value, area, seen)
    ensures r.Some? ==> forall i :: 0 <= i < |catalog| && Eligible(catalog[i], area, seen) ==>
                          catalog[i].startDate <= r.value.startDate
  {
    if |catalog| == 0 then None
    else
      var rest := Query(catalog[1..], area, seen);
      if !Eligible(catalog[0], area, seen) then rest
      else if rest.None? || rest.value.startDate <= catalog[0].startDate then Some(catalog[0])
      else rest
  }

  /**
   * One pass of the loop body after the query returned `img`: record it as
   * seen, then accept it only if subtracting its footprint removes at least
   * `minGain` cells.
   */
  function Consider(s: Selection, img: Image, minGain: nat): (s': Selection)
    ensures s'.seen == s.seen + {img.uuid}
    ensures s'.area <= s.area
    ensures |s.area - img.footprint| + minGain > |s.area| ==>
              s'.area == s.area && s'.toFetch == s.toFetch && s'.chosen == s.chosen
    ensures |s.area - img.footprint| + minGain <= |s.area| ==>
              && s'.area == s.area - img.footprint
              && s'.toFetch == s.toFetch + {img.uuid}
              && s'.chosen == s.chosen + [img]
              && |s'.area| + minGain <= |s.area|
    ensures s.toFetch <= s.seen ==> s'.toFetch <= s'.seen
    ensures s'.chosen != s.chosen ==> s'.area !! img.footprint
  {
    var seen := s.seen + {img.uuid};
    var newArea := s.area - img.footprint;
    if |s.area| - |newArea| < minGain then
      s.(seen := seen)
    else
      Selection(newArea, seen, s.toFetch + {img.uuid}, s.chosen + [img])
  }

  /**
   * What the selection loop keeps true of its state on every iteration: the
   * bookkeeping of area, uuids and gains, and the recency of what it accepted.
   */
  predicate Invariant(catalog: Catalog, searchArea: Region, target: int, minGain: nat, s: Selection)
  {
    && Accounting(catalog, searchArea, target, minGain, s)
    && NewestFirst(s.chosen)
    && MostRecentFirst(catalog, s)
    && NoNewerSkipped(catalog, searchArea, s)
    && AcceptedAboveTarget(searchArea, target, s.chosen)
    && RejectedForGain(catalog, minGain, s)
    && (DistinctUuids(catalog) ==> NewerFailedGuard(catalog, searchArea, minGain, s.chosen))
  }

  /**
   * At each acceptance, every more recent catalog row either missed what
   * remained of the search area or met it in fewer than `minGain` cells: no
   * newer image that would have passed the progress guard was passed over.
   */
  predicate NewerFailedGuard(catalog: Catalog, searchArea: Region, minGain: nat, chosen: seq<Image>)
  {
    forall k, j :: 0 <= k < |chosen| && 0 <= j < |catalog| && chosen[k].startDate < catalog[j].startDate ==>
      catalog[j].footprint * Remaining(searchArea, chosen, k) == {} ||
      |catalog[j].footprint * Remaining(searchArea, chosen, k)| < minGain
  }

  /** Every image was accepted while what remained of the search area still exceeded `target`. */
  predicate AcceptedAboveTarget(searchArea: Region, target: int, chosen: seq<Image>)
  {
    forall k :: 0 <= k < |chosen| ==> |Remaining(searchArea, chosen, k)| > target
  }

  /**
   * Every uuid returned but not accepted belongs to a catalog row that meets
   * the uncovered area in fewer than `minGain` cells: it was turned down by
   * the progress guard, and would still be.
   */
  predicate RejectedForGain(catalog: Catalog, minGain: nat, s: Selection)
  {
    forall u :: u in s.seen - s.toFetch ==>
      exists j :: 0 <= j < |catalog| && catalog[j].uuid == u && |s.area * catalog[j].footprint| < minGain
  }

  /** The bookkeeping part of the loop invariant. */
  predicate Accounting(catalog: Catalog, searchArea: Region, target: int, minGain: nat, s: Selection)
  {
    && s.area == searchArea - Covered(s.chosen)
    && (forall i :: 0 <= i < |s.chosen| ==> s.chosen[i] in catalog)
    && s.toFetch == UuidsOf(s.chosen)
    && s.toFetch <= s.seen <= CatalogUuids(catalog)
    && DistinctUuids(s.chosen)
    && |s.area| + minGain * |s.chosen| <= |searchArea|
    && EachGains(searchArea, s.chosen, minGain)
    && (|searchArea| <= target ==> s == Selection(searchArea, {}, {}, []))
  }

  /** What remains of the search area after the first `k` accepted images. */
  function Remaining(searchArea: Region, chosen: seq<Image>, k: int): Region
    requires 0 <= k <= |chosen|
  {
    searchArea - Covered(chosen[..k])
  }

  /** Every acceptance, taken on its own, removed at least `minGain` cells from what remained before it. */
  predicate EachGains(searchArea: Region, chosen: seq<Image>, minGain: nat)
  {
    forall k :: 0 <= k < |chosen| ==> |Remaining(searchArea, chosen, k + 1)| + minGain <= |Remaining(searchArea, chosen, k)|
  }

  /**
   * When each image was accepted, every more recent row meeting what then
   * remained of the search area had already been returned by the query: the
   * loop takes candidates newest first.
   */
  predicate NoNewerSkipped(catalog: Catalog, searchArea: Region, s: Selection)
  {
    forall k, j ::
      && 0 <= k < |s.chosen| && 0 <= j < |catalog|
      && catalog[j].footprint * Remaining(searchArea, s.chosen, k) != {}
      && s.chosen[k].startDate < catalog[j].startDate
      ==> catalog[j].uuid in s.seen
  }

  /** The accepted images were accepted in order of non-increasing start date. */
  predicate NewestFirst(chosen: seq<Image>)
  {
    forall k, l :: 0 <= k < l < |chosen| ==> chosen[l].startDate <= chosen[k].startDate
  }

  /**
   * Every accepted image is at least as recent as every catalog row the
   * query could still return: the loop never accepts an image while a more
   * recent candidate is waiting.
   */
  predicate MostRecentFirst(catalog: Catalog, s: Selection)
  {
    forall k, j :: 0 <= k < |s.chosen| && 0 <= j < |catalog| && Eligible(catalog[j], s.area, s.seen) ==>
      catalog[j].startDate <= s.chosen[k].startDate
  }

  /** One iteration on a candidate returned by the query keeps the loop invariant. */
  lemma ConsiderKeepsInvariant(catalog: Catalog, searchArea: Region, target: int, minGain: nat, s: Selection, img: Image)
    requires Invariant(catalog, searchArea, target, minGain, s)
    requires |s.area| > target
    requires Query(catalog, s.area, s.seen) == Some(img)
    ensures Invariant(catalog, searchArea, target, minGain, Consider(s, img, minGain))
  {
    RecencyStep(catalog, searchArea, s, img, minGain);
    AboveTargetStep(searchArea, target, s, img, minGain);
    RejectedStep(catalog, s, img, minGain);
    NewerFailedStep(catalog, searchArea, minGain, s, img);
    if |s.area - img.footprint| + minGain <= |s.area| {
      AcceptKeepsInvariant(catalog, searchArea, target, minGain, s, img);
    } else {
      RowUuid(catalog, img);
    }
  }

  /**
   * One iteration keeps the recency facts: a row still eligible afterwards
   * was eligible before, and the query returned the most recent such row.
   */
  lemma RecencyStep(catalog: Catalog, searchArea: Region, s: Selection, img: Image, minGain: nat)
    requires s.area == searchArea - Covered(s.chosen)
    requires NewestFirst(s.chosen) && MostRecentFirst(catalog, s) && NoNewerSkipped(catalog, searchArea, s)
    requires Query(catalog, s.area, s.seen) == Some(img)
    ensures NewestFirst(Consider(s, img, minGain).chosen)
    ensures MostRecentFirst(catalog, Consider(s, img, minGain))
    ensures NoNewerSkipped(catalog, searchArea, Consider(s, img, minGain))
  {
    NewestFirstStep(catalog, s, img, minGain);
    MostRecentStep(catalog, s, img, minGain);
    NoNewerSkippedStep(catalog, searchArea, s, img, minGain);
  }

  /** An accepted eligible row is no more recent than any earlier acceptance. */
  lemma NewestFirstStep(catalog: Catalog, s: Selection, img: Image, minGain: nat)
    requires NewestFirst(s.chosen) && MostRecentFirst(catalog, s)
    requires img in catalog && Eligible(img, s.area, s.seen)
    ensures NewestFirst(Consider(s, img, minGain).chosen)
  {
    var s' := Consider(s, img, minGain);
    if s'.chosen != s.chosen {
      var j0 :| 0 <= j0 < |catalog| && catalog[j0] == img;
      forall k, l | 0 <= k < l < |s'.chosen| ensures s'.chosen[l].startDate <= s'.chosen[k].startDate {
        assert s'.chosen[k] == s.chosen[k];
        if l < |s.chosen| {
          assert s'.chosen[l] == s.chosen[l];
        } else {
          assert Eligible(catalog[j0], s.area, s.seen);
        }
      }
    }
  }

  /** A row eligible after the step was eligible before, so no acceptance is older than it. */
  lemma MostRecentStep(catalog: Catalog, s: Selection, img: Image, minGain: nat)
    requires MostRecentFirst(catalog, s)
    requires Query(catalog, s.area, s.seen) == Some(img)
    ensures MostRecentFirst(catalog, Consider(s, img, minGain))
  {
    var s' := Consider(s, img, minGain);
    forall k, j | 0 <= k < |s'.chosen| && 0 <= j < |catalog| && Eligible(catalog[j], s'.area, s'.seen)
      ensures catalog[j].startDate <= s'.chosen[k].startDate
    {
      assert Eligible(catalog[j], s.area, s.seen);
      if k < |s.chosen| {
        assert s'.chosen[k] == s.chosen[k];
      }
    }
  }

  /** A row newer than the accepted one and meeting the area was already returned. */
  lemma NoNewerSkippedStep(catalog: Catalog, searchArea: Region, s: Selection, img: Image, minGain: nat)
    requires s.area == searchArea - Covered(s.chosen)
    requires NoNewerSkipped(catalog, searchArea, s)
    requires Query(catalog, s.area, s.seen) == Some(img)
    ensures NoNewerSkipped(catalog, searchArea, Consider(s, img, minGain))
  {
    var s' := Consider(s, img, minGain);
    if s'.chosen != s.chosen {
      forall k, j | && 0 <= k < |s'.chosen| && 0 <= j < |catalog|
                    && catalog[j].footprint * Remaining(searchArea, s'.chosen, k) != {}
                    && s'.chosen[k].startDate < catalog[j].startDate
        ensures catalog[j].uuid in s'.seen
      {
        RemainingPrefix(searchArea, s.chosen, img, k);
        if k < |s.chosen| {
          assert s'.chosen[k] == s.chosen[k];
        }
      }
    }
  }

  /** Appending an image does not change what remained after the first `k` acceptances. */
  lemma RemainingPrefix(searchArea: Region, chosen: seq<Image>, img: Image, k: int)
    requires 0 <= k <= |chosen|
    ensures Remaining(searchArea, chosen + [img], k) == Remaining(searchArea, chosen, k)
  {
    assert (chosen + [img])[..k] == chosen[..k];
  }

  /**
   * When an image is accepted, every more recent row either misses the area
   * or meets it in fewer than `minGain` cells. The query passed over such a
   * row only because it was already returned: either it was accepted, and
   * its footprint is covered, or it was turned down by the progress guard.
   * Uuids are unique in the images table, so a uuid names one row.
   */
  lemma NewerFailedAtAccept(catalog: Catalog, searchArea: Region, minGain: nat, s: Selection, img: Image)
    requires DistinctUuids(catalog)
    requires s.area == searchArea - Covered(s.chosen)
    requires forall i :: 0 <= i < |s.chosen| ==> s.chosen[i] in catalog
    requires s.toFetch == UuidsOf(s.chosen)
    requires RejectedForGain(catalog, minGain, s)
    requires Query(catalog, s.area, s.seen) == Some(img)
    ensures forall j :: 0 <= j < |catalog| && img.startDate < catalog[j].startDate ==>
      catalog[j].footprint * s.area == {} || |catalog[j].footprint * s.area| < minGain
  {
    forall j | 0 <= j < |catalog| && img.startDate < catalog[j].startDate
      ensures catalog[j].footprint * s.area == {} || |catalog[j].footprint * s.area| < minGain
    {
      NewerRowFailed(catalog, searchArea, minGain, s, img, j);
    }
  }

  lemma NewerRowFailed(catalog: Catalog, searchArea: Region, minGain: nat, s: Selection, img: Image, j: int)
    requires DistinctUuids(catalog)
    requires s.area == searchArea - Covered(s.chosen)
    requires forall i :: 0 <= i < |s.chosen| ==> s.chosen[i] in catalog
    requires s.toFetch == UuidsOf(s.chosen)
    requires RejectedForGain(catalog, minGain, s)
    requires Query(catalog, s.area, s.seen) == Some(img)
    requires 0 <= j < |catalog| && img.startDate < catalog[j].startDate
    ensures catalog[j].footprint * s.area == {} || |catalog[j].footprint * s.area| < minGain
  {
    assert !Eligible(catalog[j], s.area, s.seen);
    var u := catalog[j].uuid;
    if u in s.toFetch {
      AcceptedRowCovered(catalog, s.chosen, j);
    } else if u in s.seen {
      assert u in s.seen - s.toFetch;
      var j1 :| 0 <= j1 < |catalog| && catalog[j1].uuid == u && |s.area * catalog[j1].footprint| < minGain;
      SameUuidSameRow(catalog, j1, j);
      assert catalog[j].footprint * s.area == s.area * catalog[j].footprint;
    }
  }

  /** A catalog row whose uuid was accepted has its footprint inside the covered region. */
  lemma AcceptedRowCovered(catalog: Catalog, chosen: seq<Image>, j: int)
    requires DistinctUuids(catalog)
    requires forall i :: 0 <= i < |chosen| ==> chosen[i] in catalog
    requires 0 <= j < |catalog| && catalog[j].uuid in UuidsOf(chosen)
    ensures catalog[j].footprint <= Covered(chosen)
  {
    var m :| 0 <= m < |chosen| && chosen[m].uuid == catalog[j].uuid;
    var j2 :| 0 <= j2 < |catalog| && catalog[j2] == chosen[m];
    SameUuidSameRow(catalog, j2, j);
    CoveredContains(chosen);
  }

  /** In a catalog with unique uuids, a uuid names one row. */
  lemma SameUuidSameRow(catalog: Catalog, i: int, j: int)
    requires DistinctUuids(catalog)
    requires 0 <= i < |catalog| && 0 <= j < |catalog| && catalog[i].uuid == catalog[j].uuid
    ensures i == j
  {
  }

  /** One iteration keeps the record that every newer row failed the guard at each acceptance. */
  lemma NewerFailedStep(catalog: Catalog, searchArea: Region, minGain: nat, s: Selection, img: Image)
    requires DistinctUuids(catalog) ==> NewerFailedGuard(catalog, searchArea, minGain, s.chosen)
    requires s.area == searchArea - Covered(s.chosen)
    requires forall i :: 0 <= i < |s.chosen| ==> s.chosen[i] in catalog
    requires s.toFetch == UuidsOf(s.chosen)
    requires RejectedForGain(catalog, minGain, s)
    requires Query(catalog, s.area, s.seen) == Some(img)
    ensures DistinctUuids(catalog) ==> NewerFailedGuard(catalog, searchArea, minGain, Consider(s, img, minGain).chosen)
  {
    var c := Consider(s, img, minGain).chosen;
    if DistinctUuids(catalog) && c != s.chosen {
      NewerFailedAtAccept(catalog, searchArea, minGain, s, img);
      forall k, j | 0 <= k < |c| && 0 <= j < |catalog| && c[k].startDate < catalog[j].startDate
        ensures catalog[j].footprint * Remaining(searchArea, c, k) == {} ||
                |catalog[j].footprint * Remaining(searchArea, c, k)| < minGain
      {
        RemainingPrefix(searchArea, s.chosen, img, k);
        if k < |s.chosen| {
          assert c[k] == s.chosen[k];
        } else {
          assert s.chosen[..k] == s.chosen;
        }
      }
    }
  }

  /** An acceptance made while the area exceeds `target` extends the record of acceptances above target. */
  lemma AboveTargetStep(searchArea: Region, target: int, s: Selection, img: Image, minGain: nat)
    requires s.area == searchArea - Covered(s.chosen)
    requires |s.area| > target
    requires AcceptedAboveTarget(searchArea, target, s.chosen)
    ensures AcceptedAboveTarget(searchArea, target, Consider(s, img, minGain).chosen)
  {
    var c := Consider(s, img, minGain).chosen;
    forall k | 0 <= k < |c| ensures |Remaining(searchArea, c, k)| > target {
      if k < |s.chosen| {
        assert c[..k] == s.chosen[..k];
        assert Remaining(searchArea, c, k) == Remaining(searchArea, s.chosen, k);
      } else {
        assert c[..k] == s.chosen;
        assert Remaining(searchArea, c, k) == s.area;
      }
    }
  }

  /**
   * A rejected candidate meets the area in fewer than `minGain` cells, and
   * an acceptance only shrinks the area, so earlier rejections stay justified.
   */
  lemma RejectedStep(catalog: Catalog, s: Selection, img: Image, minGain: nat)
    requires s.toFetch <= s.seen
    requires RejectedForGain(catalog, minGain, s)
    requires img in catalog && img.uuid !in s.seen
    ensures RejectedForGain(catalog, minGain, Consider(s, img, minGain))
  {
    var s' := Consider(s, img, minGain);
    forall u | u in s'.seen - s'.toFetch
      ensures exists j :: 0 <= j < |catalog| && catalog[j].uuid == u && |s'.area * catalog[j].footprint| < minGain
    {
      if u == img.uuid {
        var j0 :| 0 <= j0 < |catalog| && catalog[j0] == img;
        assert s'.toFetch == s.toFetch;
        DifferenceCard(s.area, img.footprint);
        assert |s'.area * catalog[j0].footprint| < minGain;
      } else {
        assert u in s.seen - s.toFetch;
        var j :| 0 <= j < |catalog| && catalog[j].uuid == u && |s.area * catalog[j].footprint| < minGain;
        SubsetCard(s'.area * catalog[j].footprint, s.area * catalog[j].footprint);
      }
    }
  }

  /** Removing `b` from `a` loses exactly the cells they share. */
  lemma DifferenceCard(a: Region, b: Region)
    ensures |a - b| + |a * b| == |a|
  {
    assert a == (a - b) + (a * b);
    assert (a - b) * (a * b) == {};
  }

  /** A subset is no larger than its superset. */
  lemma SubsetCard(a: Region, b: Region)
    requires a <= b
    ensures |a| <= |b|
  {
    assert b == a + (b - a);
    assert a * (b - a) == {};
  }

  /**
   * Two images over the same cell, the older stored second: a run that
   * accepted only the older one would have skipped the newer one unseen,
   * which the loop invariant rules out.
   */
  lemma OlderAloneIsNotGreedy()
    ensures var c := Cell(0, 0);
      var newer, older := Image("A", 2, {c}), Image("B", 1, {c});
      !NoNewerSkipped([newer, older], {c}, Selection({}, {"B"}, {"B"}, [older]))
  {
    var c := Cell(0, 0);
    var newer, older := Image("A", 2, {c}), Image("B", 1, {c});
    var s := Selection({}, {"B"}, {"B"}, [older]);
    assert s.chosen[..0] == [];
    assert c in newer.footprint * Remaining({c}, s.chosen, 0);
    assert [newer, older][0] == newer;
    assert "A" != "B";
  }

  /**
   * One image over the one cell of the search area, with a minimum gain of
   * one cell: a final state that saw the image but did not accept it breaks
   * the invariant, because the image would have removed enough.
   */
  lemma RejectingEnoughGainIsNotFetch()
    ensures var c := Cell(0, 0);
      !RejectedForGain([Image("A", 1, {c})], 1, Selection({c}, {"A"}, {}, []))
  {
    var c := Cell(0, 0);
    var s := Selection({c}, {"A"}, {}, []);
    assert "A" in s.seen - s.toFetch;
    assert s.area * {c} == {c};
  }

  /**
   * Two images over two cells with a target of one cell: once the newer one
   * is accepted one cell remains, so accepting the older one as well would
   * be an acceptance at the target, which the invariant rules out.
   */
  lemma AcceptingAtTargetIsNotFetch()
    ensures var c1, c2 := Cell(0, 0), Cell(1, 0);
      var a, b := Image("A", 2, {c1}), Image("B", 1, {c2});
      !AcceptedAboveTarget({c1, c2}, 1, [a, b])
  {
    var c1, c2 := Cell(0, 0), Cell(1, 0);
    var a, b := Image("A", 2, {c1}), Image("B", 1, {c2});
    assert [a, b][..1] == [a];
    assert Covered([a]) == {c1} by {
      assert [a][..0] == [];
    }
    assert Remaining({c1, c2}, [a, b], 1) == {c2};
  }

  /**
   * A newer image over one cell and an older one over two: the loop accepts
   * the newer one first, since it removes a cell. A final state that
   * accepted only the older one, with the newer one counted as seen, passed
   * over an image that would have passed the progress guard.
   */
  lemma SkippingEnoughGainIsNotFetch()
    ensures var c1, c2 := Cell(0, 0), Cell(1, 0);
      var y, x := Image("Y", 2, {c1}), Image("X", 1, {c1, c2});
      !NewerFailedGuard([y, x], {c1, c2}, 1, [x])
  {
    var c1, c2 := Cell(0, 0), Cell(1, 0);
    var y, x := Image("Y", 2, {c1}), Image("X", 1, {c1, c2});
    assert [x][..0] == [];
    assert Remaining({c1, c2}, [x], 0) == {c1, c2};
    assert [y, x][0] == y;
    assert y.footprint * {c1, c2} == {c1};
  }

  /** Accepting an image that removes at least `minGain` cells extends the per-acceptance gain record. */
  lemma GainStep(searchArea: Region, chosen: seq<Image>, img: Image, minGain: nat)
    requires EachGains(searchArea, chosen, minGain)
    requires |Remaining(searchArea, chosen, |chosen|) - img.footprint| + minGain <= |Remaining(searchArea, chosen, |chosen|)|
    ensures EachGains(searchArea, chosen + [img], minGain)
  {
    var c := chosen + [img];
    forall k | 0 <= k < |c| ensures |Remaining(searchArea, c, k + 1)| + minGain <= |Remaining(searchArea, c, k)| {
      if k < |chosen| {
        assert c[..k + 1] == chosen[..k + 1];
        assert c[..k] == chosen[..k];
        assert |Remaining(searchArea, chosen, k + 1)| + minGain <= |Remaining(searchArea, chosen, k)|;
      } else {
        assert c[..k + 1] == c;
        assert c[..k] == chosen == chosen[..|chosen|];
        CoveredAppend(chosen, img);
        assert Remaining(searchArea, c, k + 1) == Remaining(searchArea, chosen, |chosen|) - img.footprint;
      }
    }
  }

  /** A catalog row's uuid is one of the catalog's uuids. */
  lemma RowUuid(catalog: Catalog, img: Image)
    requires img in catalog
    ensures img.uuid in CatalogUuids(catalog)
  {
    var i :| 0 <= i < |catalog| && catalog[i] == img;
  }

  /** Accepting a candidate keeps the bookkeeping part of the loop invariant. */
  lemma AcceptKeepsInvariant(catalog: Catalog, searchArea: Region, target: int, minGain: nat, s: Selection, img: Image)
    requires Accounting(catalog, searchArea, target, minGain, s)
    requires |s.area| > target
    requires img in catalog && img.uuid !in s.seen
    requires |s.area - img.footprint| + minGain <= |s.area|
    ensures Accounting(catalog, searchArea, target, minGain, Consider(s, img, minGain))
  {
    var s' := Selection(s.area - img.footprint, s.seen + {img.uuid}, s.toFetch + {img.uuid}, s.chosen + [img]);
    assert Consider(s, img, minGain) == s';
    RowUuid(catalog, img);
    CoveredAppend(s.chosen, img);
    UuidsOfAppend(s.chosen, img);
    AcceptDistinct(s.chosen, img, s.seen);
    AcceptGain(|s'.area|, |s.area|, |s.chosen|, minGain, |searchArea|);
    assert s.chosen[..|s.chosen|] == s.chosen;
    GainStep(searchArea, s.chosen, img, minGain);
    assert forall i :: 0 <= i < |s'.chosen| ==> s'.chosen[i] in catalog by {
      forall i | 0 <= i < |s'.chosen| ensures s'.chosen[i] in catalog {
        if i < |s.chosen| { assert s'.chosen[i] == s.chosen[i]; }
      }
    }
  }

  lemma UuidsOfAppend(chosen: seq<Image>, img: Image)
    ensures UuidsOf(chosen + [img]) == UuidsOf(chosen) + {img.uuid}
  {
    var c := chosen + [img];
    assert forall i :: 0 <= i < |chosen| ==> c[i] == chosen[i];
    assert c[|chosen|] == img;
  }

  /** No uuid occurs twice among the accepted images. */
  predicate DistinctUuids(chosen: seq<Image>)
  {
    forall i, j :: 0 <= i < j < |chosen| ==> chosen[i].uuid != chosen[j].uuid
  }

  lemma AcceptDistinct(chosen: seq<Image>, img: Image, seen: set<Uuid>)
    requires DistinctUuids(chosen)
    requires UuidsOf(chosen) <= seen && img.uuid !in seen
    ensures DistinctUuids(chosen + [img])
  {
    var c := chosen + [img];
    forall i, j | 0 <= i < j < |c| ensures c[i].uuid != c[j].uuid {
      assert c[i] == chosen[i];
      if j < |chosen| {
        assert c[j] == chosen[j];
      } else {
        assert chosen[i].uuid in UuidsOf(chosen);
      }
    }
  }

  lemma AcceptGain(area': nat, area: nat, accepted: nat, minGain: nat, total: nat)
    requires area + minGain * accepted <= total
    requires area' + minGain <= area
    ensures area' + minGain * (accepted + 1) <= total
  {
  }

  /**
   * The selection loop of `fetch`: starting from the search area, repeatedly
   * take the most recent unseen image meeting the uncovered area, until the
   * uncovered area is at most `target` cells or no image qualifies. `steps`
   * counts the iterations that examined a candidate.
   */
  method Fetch(catalog: Catalog, searchArea: Region, target: int, minGain: nat) returns (s: Selection, steps: nat)
    ensures |s.area| <= target || Query(catalog, s.area, s.seen).None?
    ensures s.area <= searchArea
    ensures s.area == searchArea - Covered(s.chosen)
    ensures forall i :: 0 <= i < |s.chosen| ==> s.chosen[i] in catalog && s.area !! s.chosen[i].footprint
    ensures s.toFetch == UuidsOf(s.chosen)
    ensures s.toFetch <= s.seen <= CatalogUuids(catalog)
    ensures steps == |s.seen| <= |catalog|
    ensures DistinctUuids(s.chosen)
    ensures |s.area| + minGain * |s.chosen| <= |searchArea|
    ensures EachGains(searchArea, s.chosen, minGain)
    ensures NewestFirst(s.chosen)
    ensures MostRecentFirst(catalog, s)
    ensures NoNewerSkipped(catalog, searchArea, s)
    ensures AcceptedAboveTarget(searchArea, target, s.chosen)
    ensures RejectedForGain(catalog, minGain, s)
    ensures DistinctUuids(catalog) ==> NewerFailedGuard(catalog, searchArea, minGain, s.chosen)
    ensures |searchArea| <= target ==> s == Selection(searchArea, {}, {}, [])
  {
    s := Selection(searchArea, {}, {}, []);
    steps := 0;
    while |s.area| > target
      invariant Invariant(catalog, searchArea, target, minGain, s)
      invariant steps == |s.seen|
      decreases |CatalogUuids(catalog) - s.seen|
    {
      var res := Query(catalog, s.area, s.seen);
      if res.None? {
        break;
      }
      ConsiderKeepsInvariant(catalog, searchArea, target, minGain, s, res.value);
      ConsiderProgress(catalog, s, res.value, minGain);
      s := Consider(s, res.value, minGain);
      steps := steps + 1;
    }
    InvariantOnExit(catalog, searchArea, target, minGain, s);
  }

  /** Each iteration sees one more uuid of the catalog, so fewer unseen uuids remain. */
  lemma ConsiderProgress(catalog: Catalog, s: Selection, img: Image, minGain: nat)
    requires img in catalog && img.uuid !in s.seen
    ensures |Consider(s, img, minGain).seen| == |s.seen| + 1
    ensures |CatalogUuids(catalog) - Consider(s, img, minGain).seen| < |CatalogUuids(catalog) - s.seen|
  {
    RowUuid(catalog, img);
    assert CatalogUuids(catalog) - Consider(s, img, minGain).seen == (CatalogUuids(catalog) - s.seen) - {img.uuid};
  }

  /** What the invariant gives once the loop has stopped. */
  lemma InvariantOnExit(catalog: Catalog, searchArea: Region, target: int, minGain: nat, s: Selection)
    requires Invariant(catalog, searchArea, target, minGain, s)
    ensures s.area <= searchArea
    ensures forall i :: 0 <= i < |s.chosen| ==> s.chosen[i] in catalog && s.area !! s.chosen[i].footprint
    ensures |s.seen| <= |catalog|
  {
    CatalogUuidsBound(catalog);
    CoveredContains(s.chosen);
    var unseen := CatalogUuids(catalog) - s.seen;
    assert CatalogUuids(catalog) == s.seen + unseen;
    assert s.seen * unseen == {};
  }

  /** A catalog names at most as many uuids as it has rows, so the loop runs at most |catalog| times. */
  lemma {:induction false} CatalogUuidsBound(catalog: Catalog)
    ensures |CatalogUuids(catalog)| <= |catalog|
  {
    if |catalog| > 0 {
      CatalogUuidsBound(catalog[1..]);
      assert CatalogUuids(catalog) == CatalogUuids(catalog[1..]) + {catalog[0].uuid} by {
        forall u | u in CatalogUuids(catalog)
          ensures u in CatalogUuids(catalog[1..]) + {catalog[0].uuid}
        {
          var i :| 0 <= i < |catalog| && catalog[i].uuid == u;
          if i > 0 {
            assert catalog[1..][i - 1].uuid == u;
          }
        }
      }
    }
  }

  /** Accepting one more image adds its footprint to the covered region. */
  lemma CoveredAppend(chosen: seq<Image>, img: Image)
    ensures Covered(chosen + [img]) == Covered(chosen) + img.footprint
  {
    assert (chosen + [img])[..|chosen|] == chosen;
  }

  /** Every accepted footprint lies inside the covered region, hence outside what remains. */
  lemma {:induction false} CoveredContains(chosen: seq<Image>)
    ensures forall i :: 0 <= i < |chosen| ==> chosen[i].footprint <= Covered(chosen)
  {
    if |chosen| > 0 {
      var prefix := chosen[..|chosen| - 1];
      CoveredContains(prefix);
      forall i | 0 <= i < |chosen| - 1
        ensures chosen[i].footprint <= Covered(chosen)
      {
        assert chosen[i] == prefix[i];
      }
    }
  }
}

=== FILE: dicts.dfy ===
/**
 * A string-keyed dictionary with Python's semantics: keys are unique, and
 * keys keep the position of their first insertion, so overwriting a key
 * changes its value but not its place.
 */
module Dicts {
  import opened Wrappers

  datatype Entry<V> = Entry(key: string, value: V)

  /** The entries of a dictionary, in insertion order. */
  type Dict<V> = seq<Entry<V>>

  /** No key occurs twice. */
  predicate UniqueKeys<V>(d: Dict<V>)
  {
    forall i, j :: 0 <= i < j < |d| ==> d[i].key != d[j].key
  }

  function KeySet<V>(d: Dict<V>): set<string>
  {
    set i | 0 <= i < |d| :: d[i].key
  }

  /** `d[k]`, or None when `k` is absent; the first entry with that key answers. */
  function Get<V>(d: Dict<V>, k: string): Option<V>
  {
    if |d| == 0 then None
    else if d[0].key == k then Some(d[0].value)
    else Get(d[1..], k)
  }

  /** `d[k] = v`: an existing key is overwritten in place, a new key is appended. */
  function Put<V>(d: Dict<V>, k: string, v: V): (r: Dict<V>)
    ensures |r| == if k in KeySet(d) then |d| else |d| + 1
  {
    if |d| == 0 then [Entry(k, v)]
    else if d[0].key == k then [Entry(k, v)] + d[1..]
    else
      KeySetCons(d[0], d[1..]);
      [d[0]] + Put(d[1..], k, v)
  }

  /** The assignments `d[w.key] = w.value` for each `w` in `ws`, in order. */
  function PutAll<V>(d: Dict<V>, ws: seq<Entry<V>>): (r: Dict<V>)
    ensures |d| <= |r| <= |d| + |ws|
    decreases |ws|
  {
    if |ws| == 0 then d
    else PutAll(Put(d, ws[0].key, ws[0].value), ws[1..])
  }

  /** True when write `i` is the last write of its key. */
  predicate LastWrite<V>(ws: seq<Entry<V>>, i: int)
  {
    0 <= i < |ws| && forall j :: i < j < |ws| ==> ws[j].key != ws[i].key
  }

  lemma KeySetCons<V>(e: Entry<V>, d: Dict<V>)
    ensures KeySet([e] + d) == {e.key} + KeySet(d)
  {
    var c := [e] + d;
    forall k | k in KeySet(c) ensures k in {e.key} + KeySet(d) {
      var i :| 0 <= i < |c| && c[i].key == k;
      if i > 0 { assert d[i - 1] == c[i]; }
    }
    forall k | k in KeySet(d) ensures k in KeySet(c) {
      var i :| 0 <= i < |d| && d[i].key == k;
      assert c[i + 1] == d[i];
    }
    assert c[0] == e;
  }

  lemma KeySetConcat<V>(a: Dict<V>, b: Dict<V>)
    ensures KeySet(a + b) == KeySet(a) + KeySet(b)
  {
    var c := a + b;
    forall k | k in KeySet(c) ensures k in KeySet(a) + KeySet(b) {
      var i :| 0 <= i < |c| && c[i].key == k;
      if i >= |a| { assert b[i - |a|] == c[i]; }
    }
    forall k | k in KeySet(a) ensures k in KeySet(c) {
      var i :| 0 <= i < |a| && a[i].key == k;
      assert c[i] == a[i];
    }
    forall k | k in KeySet(b) ensures k in KeySet(c) {
      var i :| 0 <= i < |b| && b[i].key == k;
      assert c[i + |a|] == b[i];
    }
  }

  lemma UniqueKeysCons<V>(e: Entry<V>, d: Dict<V>)
    ensures UniqueKeys([e] + d) <==> UniqueKeys(d) && e.key !in KeySet(d)
  {
    var c := [e] + d;
    if UniqueKeys(c) {
      forall i, j | 0 <= i < j < |d| ensures d[i].key != d[j].key {
        assert c[i + 1] == d[i] && c[j + 1] == d[j];
      }
      forall i | 0 <= i < |d| ensures d[i].key != e.key {
        assert c[i + 1] == d[i] && c[0] == e;
      }
    }
    if UniqueKeys(d) && e.key !in KeySet(d) {
      forall i, j | 0 <= i < j < |c| ensures c[i].key != c[j].key {
        assert c[j] == d[j - 1];
        if i > 0 { assert c[i] == d[i - 1]; }
      }
    }
  }

  /** A key is found exactly when it is one of the dictionary's keys. */
  lemma {:induction false} GetPresent<V>(d: Dict<V>, k: string)
    ensures Get(d, k).Some? <==> k in KeySet(d)
  {
    if |d| > 0 {
      KeySetCons(d[0], d[1..]);
      assert [d[0]] + d[1..] == d;
      GetPresent(d[1..], k);
    }
  }

  /** After `d[k] = v`, `k` reads back `v` and every other key reads as before. */
  lemma {:induction false} PutGet<V>(d: Dict<V>, k: string, v: V, k': string)
    ensures Get(Put(d, k, v), k') == if k' == k then Some(v) else Get(d, k')
  {
    if |d| > 0 && d[0].key != k {
      PutGet(d[1..], k, v, k');
    }
  }

  /** `d[k] = v` adds `k` to the keys and leaves the first key where it was. */
  lemma {:induction false} PutKeys<V>(d: Dict<V>, k: string, v: V)
    ensures KeySet(Put(d, k, v)) == KeySet(d) + {k}
    ensures |d| > 0 ==> Put(d, k, v)[0].key == d[0].key
  {
    if |d| == 0 {
      assert Put(d, k, v) == [Entry(k, v)] + d;
      KeySetCons(Entry(k, v), d);
    } else {
      assert [d[0]] + d[1..] == d;
      KeySetCons(d[0], d[1..]);
      if d[0].key == k {
        KeySetCons(Entry(k, v), d[1..]);
      } else {
        PutKeys(d[1..], k, v);
        KeySetCons(d[0], Put(d[1..], k, v));
      }
    }
  }

  /** `d[k] = v` keeps the keys unique. */
  lemma {:induction false} PutUnique<V>(d: Dict<V>, k: string, v: V)
    requires UniqueKeys(d)
    ensures UniqueKeys(Put(d, k, v))
  {
    if |d| > 0 {
      assert [d[0]] + d[1..] == d;
      UniqueKeysCons(d[0], d[1..]);
      if d[0].key == k {
        KeySetCons(Entry(k, v), d[1..]);
        UniqueKeysCons(Entry(k, v), d[1..]);
      } else {
        PutUnique(d[1..], k, v);
        PutKeys(d[1..], k, v);
        UniqueKeysCons(d[0], Put(d[1..], k, v));
      }
    }
  }

  /** After a run of assignments, a key holds the value of its last write. */
  lemma {:induction false} PutAllLast<V>(d: Dict<V>, ws: seq<Entry<V>>, i: int)
    requires LastWrite(ws, i)
    ensures Get(PutAll(d, ws), ws[i].key) == Some(ws[i].value)
    decreases |ws|
  {
    var d' := Put(d, ws[0].key, ws[0].value);
    if i == 0 {
      forall k | k in KeySet(ws[1..]) ensures k != ws[0].key {
        var j :| 0 <= j < |ws[1..]| && ws[1..][j].key == k;
        assert ws[1..][j] == ws[j + 1];
      }
      PutAllUnwritten(d', ws[1..], ws[0].key);
      PutGet(d, ws[0].key, ws[0].value, ws[0].key);
    } else {
      assert LastWrite(ws[1..], i - 1);
      PutAllLast(d', ws[1..], i - 1);
    }
  }

  /** A run of assignments leaves the keys it never writes as they were. */
  lemma {:induction false} PutAllUnwritten<V>(d: Dict<V>, ws: seq<Entry<V>>, k: string)
    requires k !in KeySet(ws)
    ensures Get(PutAll(d, ws), k) == Get(d, k)
    decreases |ws|
  {
    if |ws| > 0 {
      assert [ws[0]] + ws[1..] == ws;
      KeySetCons(ws[0], ws[1..]);
      PutGet(d, ws[0].key, ws[0].value, k);
      PutAllUnwritten(Put(d, ws[0].key, ws[0].value), ws[1..], k);
    }
  }

  /** Two runs of assignments in a row are the run of their concatenation. */
  lemma {:induction false} PutAllConcat<V>(d: Dict<V>, a: seq<Entry<V>>, b: seq<Entry<V>>)
    ensures PutAll(d, a + b) == PutAll(PutAll(d, a), b)
    decreases |a|
  {
    if |a| == 0 {
      assert a + b == b;
    } else {
      assert (a + b)[0] == a[0];
      assert (a + b)[1..] == a[1..] + b;
      PutAllConcat(Put(d, a[0].key, a[0].value), a[1..], b);
    }
  }

  /** A run of assignments adds exactly the written keys and leaves the first key where it was. */
  lemma {:induction false} PutAllKeys<V>(d: Dict<V>, ws: seq<Entry<V>>)
    ensures KeySet(PutAll(d, ws)) == KeySet(d) + KeySet(ws)
    ensures |d| > 0 ==> |PutAll(d, ws)| > 0 && PutAll(d, ws)[0].key == d[0].key
    decreases |ws|
  {
    if |ws| > 0 {
      PutKeys(d, ws[0].key, ws[0].value);
      PutAllKeys(Put(d, ws[0].key, ws[0].value), ws[1..]);
      assert [ws[0]] + ws[1..] == ws;
      KeySetCons(ws[0], ws[1..]);
    }
  }

  /** A run of assignments keeps the keys unique. */
  lemma {:induction false} PutAllUnique<V>(d: Dict<V>, ws: seq<Entry<V>>)
    requires UniqueKeys(d)
    ensures UniqueKeys(PutAll(d, ws))
    decreases |ws|
  {
    if |ws| > 0 {
      PutUnique(d, ws[0].key, ws[0].value);
      PutAllUnique(Put(d, ws[0].key, ws[0].value), ws[1..]);
    }
  }
}

=== FILE: entries.dfy ===
/**
 * `parse_entry`: one search-feed entry flattened into a dictionary.
 *
 * The feed gives each entry a title and three lists of named fields (dates,
 * strings, integers). The dictionary starts with the title and then receives
 * the date fields, the string fields and the integer fields in that order, so
 * a later field overwrites an earlier one with the same name. Date and
 * integer parsing are supplied by the caller; a parser that rejects its text
 * stands for the exception the source would raise.
 */
module Entries {
  import opened Wrappers
  import opened Dicts

  datatype Field = Field(name: string, content: string)

  datatype FeedEntry = FeedEntry(title: string, dates: seq<Field>, strs: seq<Field>, ints: seq<Field>)

  /** A dictionary value: text, an instant (as a timestamp) or an integer. */
  datatype Value = Text(text: string) | Instant(at: int) | Number(n: int)

  /** Which of the three lists a field comes from, and so how its content is parsed. */
  datatype Kind = DateField | StrField | IntField

  /** The field whose content could not be parsed. */
  datatype ParseError = BadDate(field: Field) | BadInt(field: Field)

  function Names(fields: seq<Field>): set<string>
  {
    set i | 0 <= i < |fields| :: fields[i].name
  }

  /** True when field `i` is the last one with its name in `fields`. */
  predicate LastOfName(fields: seq<Field>, i: int)
  {
    0 <= i < |fields| && forall j :: i < j < |fields| ==> fields[j].name != fields[i].name
  }

  /** The value stored for a field's content: parsed as a date, kept as text, or parsed as an integer. */
  function ParseField(kind: Kind, content: string, parseDate: string -> Option<int>, parseInt: string -> Option<int>)
    : (r: Option<Value>)
    ensures r.None? <==> (kind == DateField && parseDate(content).None?) || (kind == IntField && parseInt(content).None?)
    ensures r.Some? && kind == DateField ==> r.value.Instant?
    ensures r.Some? && kind == IntField ==> r.value.Number?
    ensures kind == StrField ==> r == Some(Text(content))
  {
    match kind
    case DateField => (match parseDate(content) case None => None case Some(t) => Some(Instant(t)))
    case StrField => Some(Text(content))
    case IntField => (match parseInt(content) case None => None case Some(n) => Some(Number(n)))
  }

  /** Field `k` is the first one whose content does not parse. */
  predicate FirstRejected(fields: seq<Field>, kind: Kind, parseDate: string -> Option<int>, parseInt: string -> Option<int>, k: int)
  {
    && 0 <= k < |fields|
    && ParseField(kind, fields[k].content, parseDate, parseInt).None?
    && forall i :: 0 <= i < k ==> ParseField(kind, fields[i].content, parseDate, parseInt).Some?
  }

  /**
   * Turns each field into a write of its parsed content under its name,
   * stopping at the first field whose content does not parse.
   */
  function FieldWrites(fields: seq<Field>, kind: Kind, parseDate: string -> Option<int>, parseInt: string -> Option<int>)
    : (r: Result<seq<Entry<Value>>, Field>)
    ensures r.Ok? <==> forall i :: 0 <= i < |fields| ==> ParseField(kind, fields[i].content, parseDate, parseInt).Some?
    ensures r.Ok? ==> |r.value| == |fields|
    ensures r.Ok? ==> forall i :: 0 <= i < |fields| ==>
              r.value[i] == Entry(fields[i].name, ParseField(kind, fields[i].content, parseDate, parseInt).value)
    ensures r.Err? ==> exists k :: FirstRejected(fields, kind, parseDate, parseInt, k) && fields[k] == r.error
  {
    if |fields| == 0 then Ok([])
    else
      match ParseField(kind, fields[0].content, parseDate, parseInt)
      case None => Err(fields[0])
      case Some(v) =>
        match FieldWrites(fields[1..], kind, parseDate, parseInt)
        case Err(f) => Err(f)
        case Ok(rest) => Ok([Entry(fields[0].name, v)] + rest)
  }

  /**
   * The writes `parse_entry` performs after the title, in order: the dates,
   * then the strings, then the integers; or the field whose parse raised.
   */
  function Writes(e: FeedEntry, parseDate: string -> Option<int>, parseInt: string -> Option<int>)
    : (r: Result<seq<Entry<Value>>, ParseError>)
    ensures r.Ok? ==> |r.value| == |e.dates| + |e.strs| + |e.ints|
    ensures r.Err? && r.error.BadInt? ==> forall i :: 0 <= i < |e.dates| ==> parseDate(e.dates[i].content).Some?
  {
    match FieldWrites(e.dates, DateField, parseDate, parseInt)
    case Err(f) => Err(BadDate(f))
    case Ok(ds) =>
      match FieldWrites(e.ints, IntField, parseDate, parseInt)
      case Err(f) => Err(BadInt(f))
      case Ok(ns) => Ok(ds + FieldWrites(e.strs, StrField, parseDate, parseInt).value + ns)
  }

  /**
   * The dictionary built by `parse_entry`, or the field whose parse raised.
   * A dictionary it builds always starts with the key `title`.
   */
  function ParseEntry(e: FeedEntry, parseDate: string -> Option<int>, parseInt: string -> Option<int>)
    : (r: Result<Dict<Value>, ParseError>)
    ensures r.Ok? ==> |r.value| > 0 && r.value[0].key == "title"
  {
    match Writes(e, parseDate, parseInt)
    case Err(err) => Err(err)
    case Ok(ws) =>
      PutAllKeys([Entry("title", Text(e.title))], ws);
      Ok(PutAll([Entry("title", Text(e.title))], ws))
  }

  /**
   * `parse_entry` fails exactly when some date or some integer field does not
   * parse; the error names the first bad date, or, when every date parses,
   * the first bad integer.
   */
  lemma ParseEntryOutcome(e: FeedEntry, parseDate: string -> Option<int>, parseInt: string -> Option<int>)
    ensures ParseEntry(e, parseDate, parseInt).Ok? <==>
              (forall i :: 0 <= i < |e.dates| ==> parseDate(e.dates[i].content).Some?) &&
              (forall i :: 0 <= i < |e.ints| ==> parseInt(e.ints[i].content).Some?)
    ensures ParseEntry(e, parseDate, parseInt).Err? && ParseEntry(e, parseDate, parseInt).error.BadDate? ==>
              exists k :: FirstRejected(e.dates, DateField, parseDate, parseInt, k) &&
                e.dates[k] == ParseEntry(e, parseDate, parseInt).error.field
    ensures ParseEntry(e, parseDate, parseInt).Err? && ParseEntry(e, parseDate, parseInt).error.BadInt? ==>
              (forall i :: 0 <= i < |e.dates| ==> parseDate(e.dates[i].content).Some?) &&
              exists k :: FirstRejected(e.ints, IntField, parseDate, parseInt, k) &&
                e.ints[k] == ParseEntry(e, parseDate, parseInt).error.field
  {
  }

  /** The successful writes carry the field names in order: dates, then strings, then integers. */
  lemma WritesOrder(e: FeedEntry, parseDate: string -> Option<int>, parseInt: string -> Option<int>)
    requires Writes(e, parseDate, parseInt).Ok?
    ensures var ws := Writes(e, parseDate, parseInt).value;
      && (forall i :: 0 <= i < |e.dates| ==> ws[i].key == e.dates[i].name)
      && (forall i :: 0 <= i < |e.strs| ==> ws[|e.dates| + i].key == e.strs[i].name)
      && (forall i :: 0 <= i < |e.ints| ==> ws[|e.dates| + |e.strs| + i].key == e.ints[i].name)
  {
  }

  /** The successful writes are the converted dates, then strings, then integers. */
  lemma WritesParts(e: FeedEntry, parseDate: string -> Option<int>, parseInt: string -> Option<int>)
    requires Writes(e, parseDate, parseInt).Ok?
    ensures FieldWrites(e.dates, DateField, parseDate, parseInt).Ok?
    ensures FieldWrites(e.strs, StrField, parseDate, parseInt).Ok?
    ensures FieldWrites(e.ints, IntField, parseDate, parseInt).Ok?
    ensures Writes(e, parseDate, parseInt).value ==
      FieldWrites(e.dates, DateField, parseDate, parseInt).value +
      FieldWrites(e.strs, StrField, parseDate, parseInt).value +
      FieldWrites(e.ints, IntField, parseDate, parseInt).value
  {
  }

  /** The keys of a list of writes made one per field are the names of those fields. */
  lemma WriteKeys(fields: seq<Field>, ws: seq<Entry<Value>>)
    requires |ws| == |fields|
    requires forall i :: 0 <= i < |fields| ==> ws[i].key == fields[i].name
    ensures KeySet(ws) == Names(fields)
  {
    forall k | k in Names(fields) ensures k in KeySet(ws) {
      var i :| 0 <= i < |fields| && fields[i].name == k;
      assert ws[i].key == k;
    }
  }

  /** The keys written are exactly the names of the fields. */
  lemma WritesKeys(e: FeedEntry, parseDate: string -> Option<int>, parseInt: string -> Option<int>)
    requires Writes(e, parseDate, parseInt).Ok?
    ensures KeySet(Writes(e, parseDate, parseInt).value) == Names(e.dates) + Names(e.strs) + Names(e.ints)
  {
    WritesParts(e, parseDate, parseInt);
    var ds := FieldWrites(e.dates, DateField, parseDate, parseInt).value;
    var ss := FieldWrites(e.strs, StrField, parseDate, parseInt).value;
    var ns := FieldWrites(e.ints, IntField, parseDate, parseInt).value;
    WriteKeys(e.dates, ds);
    WriteKeys(e.strs, ss);
    WriteKeys(e.ints, ns);
    KeySetConcat(ds, ss);
    KeySetConcat(ds + ss, ns);
  }

  /**
   * A successful parse yields a dictionary whose first key is "title", whose
   * keys are unique, and whose keys are "title" and the names of the fields.
   */
  lemma ParseEntryKeys(e: FeedEntry, parseDate: string -> Option<int>, parseInt: string -> Option<int>)
    requires ParseEntry(e, parseDate, parseInt).Ok?
    ensures var d := ParseEntry(e, parseDate, parseInt).value;
      && |d| > 0 && d[0].key == "title"
      && UniqueKeys(d)
      && KeySet(d) == {"title"} + Names(e.dates) + Names(e.strs) + Names(e.ints)
  {
    var start := [Entry("title", Text(e.title))];
    PutAllKeys(start, Writes(e, parseDate, parseInt).value);
    PutAllUnique(start, Writes(e, parseDate, parseInt).value);
    WritesKeys(e, parseDate, parseInt);
    assert KeySet(start) == {"title"} by {
      assert start[0].key == "title";
    }
  }

  /** The title survives unless some field is named "title". */
  lemma ParseEntryTitle(e: FeedEntry, parseDate: string -> Option<int>, parseInt: string -> Option<int>)
    requires ParseEntry(e, parseDate, parseInt).Ok?
    requires "title" !in Names(e.dates) + Names(e.strs) + Names(e.ints)
    ensures Get(ParseEntry(e, parseDate, parseInt).value, "title") == Some(Text(e.title))
  {
    WritesKeys(e, parseDate, parseInt);
    PutAllUnwritten([Entry("title", Text(e.title))], Writes(e, parseDate, parseInt).value, "title");
  }

  /**
   * A successful parse is the title followed by three runs of assignments:
   * the dates, then the strings, then the integers.
   */
  lemma ParseEntryRuns(e: FeedEntry, parseDate: string -> Option<int>, parseInt: string -> Option<int>)
    requires ParseEntry(e, parseDate, parseInt).Ok?
    ensures FieldWrites(e.dates, DateField, parseDate, parseInt).Ok?
    ensures FieldWrites(e.strs, StrField, parseDate, parseInt).Ok?
    ensures FieldWrites(e.ints, IntField, parseDate, parseInt).Ok?
    ensures ParseEntry(e, parseDate, parseInt).value ==
      PutAll(PutAll(PutAll([Entry("title", Text(e.title))],
        FieldWrites(e.dates, DateField, parseDate, parseInt).value),
        FieldWrites(e.strs, StrField, parseDate, parseInt).value),
        FieldWrites(e.ints, IntField, parseDate, parseInt).value)
  {
    WritesParts(e, parseDate, parseInt);
    var ds := FieldWrites(e.dates, DateField, parseDate, parseInt).value;
    var ss := FieldWrites(e.strs, StrField, parseDate, parseInt).value;
    var ns := FieldWrites(e.ints, IntField, parseDate, parseInt).value;
    var start := [Entry("title", Text(e.title))];
    PutAllConcat(start, ds + ss, ns);
    PutAllConcat(start, ds, ss);
  }

  /** The write made for field `i` is the last write of its name when no later field has that name. */
  lemma LastConverted(fields: seq<Field>, kind: Kind, parseDate: string -> Option<int>, parseInt: string -> Option<int>, i: int)
    requires FieldWrites(fields, kind, parseDate, parseInt).Ok?
    requires LastOfName(fields, i)
    ensures LastWrite(FieldWrites(fields, kind, parseDate, parseInt).value, i)
  {
  }

  /** An integer field holds its parsed value unless a later integer field has its name. */
  lemma ParseEntryInt(e: FeedEntry, parseDate: string -> Option<int>, parseInt: string -> Option<int>, i: int)
    requires ParseEntry(e, parseDate, parseInt).Ok?
    requires LastOfName(e.ints, i)
    ensures Get(ParseEntry(e, parseDate, parseInt).value, e.ints[i].name) == Some(Number(parseInt(e.ints[i].content).value))
  {
    ParseEntryRuns(e, parseDate, parseInt);
    var ds := FieldWrites(e.dates, DateField, parseDate, parseInt).value;
    var ss := FieldWrites(e.strs, StrField, parseDate, parseInt).value;
    var ns := FieldWrites(e.ints, IntField, parseDate, parseInt).value;
    var before := PutAll(PutAll([Entry("title", Text(e.title))], ds), ss);
    LastConverted(e.ints, IntField, parseDate, parseInt, i);
    PutAllLast(before, ns, i);
  }

  /** A string field holds its text unless a later string field or any integer field has its name. */
  lemma ParseEntryStr(e: FeedEntry, parseDate: string -> Option<int>, parseInt: string -> Option<int>, i: int)
    requires ParseEntry(e, parseDate, parseInt).Ok?
    requires LastOfName(e.strs, i) && e.strs[i].name !in Names(e.ints)
    ensures Get(ParseEntry(e, parseDate, parseInt).value, e.strs[i].name) == Some(Text(e.strs[i].content))
  {
    ParseEntryRuns(e, parseDate, parseInt);
    var ds := FieldWrites(e.dates, DateField, parseDate, parseInt).value;
    var ss := FieldWrites(e.strs, StrField, parseDate, parseInt).value;
    var ns := FieldWrites(e.ints, IntField, parseDate, parseInt).value;
    var afterDates := PutAll([Entry("title", Text(e.title))], ds);
    WriteKeys(e.ints, ns);
    PutAllUnwritten(PutAll(afterDates, ss), ns, e.strs[i].name);
    LastConverted(e.strs, StrField, parseDate, parseInt, i);
    PutAllLast(afterDates, ss, i);
  }

  /** A date field holds its parsed instant unless a later date field or any string or integer field has its name. */
  lemma ParseEntryDate(e: FeedEntry, parseDate: string -> Option<int>, parseInt: string -> Option<int>, i: int)
    requires ParseEntry(e, parseDate, parseInt).Ok?
    requires LastOfName(e.dates, i) && e.dates[i].name !in Names(e.strs) + Names(e.ints)
    ensures Get(ParseEntry(e, parseDate, parseInt).value, e.dates[i].name) == Some(Instant(parseDate(e.dates[i].content).value))
  {
    ParseEntryRuns(e, parseDate, parseInt);
    var ds := FieldWrites(e.dates, DateField, parseDate, parseInt).value;
    var ss := FieldWrites(e.strs, StrField, parseDate, parseInt).value;
    var ns := FieldWrites(e.ints, IntField, parseDate, parseInt).value;
    var start := [Entry("title", Text(e.title))];
    WriteKeys(e.strs, ss);
    WriteKeys(e.ints, ns);
    PutAllUnwritten(PutAll(PutAll(start, ds), ss), ns, e.dates[i].name);
    PutAllUnwritten(PutAll(start, ds), ss, e.dates[i].name);
    LastConverted(e.dates, DateField, parseDate, parseInt, i);
    PutAllLast(start, ds, i);
  }
}

=== FILE: pixels.dfy ===
/**
 * The linear channels of `convert`: `process_band` clamps each pixel of
 * `band * gain` to `[0, clip]` and multiplies it by the integer factor
 * `255 // clip`. A band is a grid of integer pixels (Sentinel-1 GRD bands are
 * integer rasters), modelled as a sequence of rows.
 */
module Pixels {

  type Band = seq<seq<int>>

  /** Python's `a // b`: the quotient rounded toward negative infinity. */
  function FloorDiv(a: int, b: int): (q: int)
    requires b != 0
    ensures b > 0 ==> q * b <= a < q * b + b
    ensures b < 0 ==> q * b >= a > q * b + b
  {
    if b > 0 then a / b else (-a) / (-b)
  }

  /** numpy's `clip(x, lo, hi)`, which is `min(max(x, lo), hi)` even when `lo > hi`. */
  function Clip(x: int, lo: int, hi: int): (r: int)
    ensures lo <= hi ==> lo <= r <= hi
    ensures lo <= x <= hi ==> r == x
    ensures lo > hi ==> r == hi
  {
    var up := if x < lo then lo else x;
    if up > hi then hi else up
  }

  /** The scale factor `255 // clip`. */
  function Factor(clip: int): int
    requires clip != 0
  {
    FloorDiv(255, clip)
  }

  /**
   * `process_band` on one pixel. `clip` of 0 is excluded: the factor would
   * divide by zero. For a positive clip the result lies in
   * `[0, clip * (255 // clip)]`, which never exceeds 255.
   */
  function ProcessPixel(v: int, gain: int, clip: int): (r: int)
    requires clip != 0
    ensures clip > 0 ==> 0 <= r <= clip * Factor(clip) <= 255
  {
    var c := Clip(v * gain, 0, clip);
    ScaledClampBound(c, clip);
    c * Factor(clip)
  }

  /** A value clamped to `[0, clip]` and scaled by the factor stays within `[0, clip * factor]`. */
  lemma ScaledClampBound(c: int, clip: int)
    requires clip != 0
    ensures clip > 0 && 0 <= c <= clip ==> 0 <= c * Factor(clip) <= clip * Factor(clip) <= 255
  {
    if clip > 0 && 0 <= c <= clip {
      assert Factor(clip) >= 0;
      ScaleMonotone(0, c, Factor(clip));
      ScaleMonotone(c, clip, Factor(clip));
    }
  }

  /** The two bands have the same number of rows, and corresponding rows the same length. */
  predicate SameShape(a: Band, b: Band)
  {
    |a| == |b| && forall i :: 0 <= i < |a| ==> |a[i]| == |b[i]|
  }

  /** `process_band`: the pixel function applied to every pixel, preserving the band's shape. */
  function ProcessBand(band: Band, gain: int, clip: int): (r: Band)
    requires clip != 0
    ensures SameShape(r, band)
    ensures forall i, j :: 0 <= i < |band| && 0 <= j < |band[i]| ==> r[i][j] == ProcessPixel(band[i][j], gain, clip)
  {
    seq(|band|, i requires 0 <= i < |band| =>
      seq(|band[i]|, j requires 0 <= j < |band[i]| => ProcessPixel(band[i][j], gain, clip)))
  }

  /** The red channel: the cross-polarisation band with gain 1 and clip 200. */
  function Red(vh: Band): (r: Band)
    ensures SameShape(r, vh)
    ensures forall i, j :: 0 <= i < |vh| && 0 <= j < |vh[i]| ==> 0 <= r[i][j] <= 200
  {
    BandRange(vh, 1, 200);
    ProcessBand(vh, 1, 200)
  }

  /** The blue channel: the co-polarisation band with gain 1 and clip 250. */
  function Blue(vv: Band): (r: Band)
    ensures SameShape(r, vv)
    ensures forall i, j :: 0 <= i < |vv| && 0 <= j < |vv[i]| ==> 0 <= r[i][j] <= 250
  {
    BandRange(vv, 1, 250);
    ProcessBand(vv, 1, 250)
  }

  /** A pixel whose `band * gain` is not positive becomes 0. */
  lemma PixelNonPositive(v: int, gain: int, clip: int)
    requires clip > 0 && v * gain <= 0
    ensures ProcessPixel(v, gain, clip) == 0
  {
  }

  /** For a non-negative gain the output never decreases as the input grows. */
  lemma PixelMonotone(v1: int, v2: int, gain: int, clip: int)
    requires clip > 0 && gain >= 0 && v1 <= v2
    ensures ProcessPixel(v1, gain, clip) <= ProcessPixel(v2, gain, clip)
  {
    ScaleMonotone(v1, v2, gain);
    var c1, c2 := Clip(v1 * gain, 0, clip), Clip(v2 * gain, 0, clip);
    ScaleMonotone(c1, c2, Factor(clip));
  }

  lemma ScaleMonotone(a: int, b: int, k: int)
    requires a <= b && k >= 0
    ensures a * k <= b * k
  {
    assert b * k - a * k == (b - a) * k;
  }

  /** For a clip above 255 the factor is 0, so every pixel is 0. */
  lemma PixelLargeClip(v: int, gain: int, clip: int)
    requires clip > 255
    ensures ProcessPixel(v, gain, clip) == 0
  {
  }

  /**
   * For a clip between 128 and 255 the factor is 1: the output is the clamped
   * value, not a stretch to 255, and an in-range value passes through.
   */
  lemma PixelFactorOne(v: int, gain: int, clip: int)
    requires 128 <= clip <= 255
    ensures Factor(clip) == 1
    ensures ProcessPixel(v, gain, clip) == Clip(v * gain, 0, clip)
    ensures 0 <= v * gain <= clip ==> ProcessPixel(v, gain, clip) == v * gain
  {
  }

  /** An all-zero band gives an all-zero result. */
  lemma ZeroBand(band: Band, gain: int, clip: int)
    requires clip > 0
    requires forall i, j :: 0 <= i < |band| && 0 <= j < |band[i]| ==> band[i][j] == 0
    ensures forall i, j :: 0 <= i < |band| && 0 <= j < |band[i]| ==> ProcessBand(band, gain, clip)[i][j] == 0
  {
  }

  /** Every pixel of a processed band lies in `[0, clip * (255 // clip)]`. */
  lemma BandRange(band: Band, gain: int, clip: int)
    requires clip > 0
    ensures forall i, j :: 0 <= i < |band| && 0 <= j < |band[i]| ==>
      0 <= ProcessBand(band, gain, clip)[i][j] <= clip * Factor(clip) <= 255
  {
    forall i, j | 0 <= i < |band| && 0 <= j < |band[i]|
      ensures 0 <= ProcessBand(band, gain, clip)[i][j] <= clip * Factor(clip) <= 255
    {
      assert ProcessBand(band, gain, clip)[i][j] == ProcessPixel(band[i][j], gain, clip);
    }
  }

  /** Pixelwise larger input gives pixelwise larger output, for a non-negative gain. */
  lemma BandMonotone(a: Band, b: Band, gain: int, clip: int)
    requires clip > 0 && gain >= 0
    requires SameShape(a, b)
    requires forall i, j :: 0 <= i < |a| && 0 <= j < |a[i]| ==> a[i][j] <= b[i][j]
    ensures forall i, j :: 0 <= i < |a| && 0 <= j < |a[i]| ==>
      ProcessBand(a, gain, clip)[i][j] <= ProcessBand(b, gain, clip)[i][j]
  {
    forall i, j | 0 <= i < |a| && 0 <= j < |a[i]|
      ensures ProcessBand(a, gain, clip)[i][j] <= ProcessBand(b, gain, clip)[i][j]
    {
      PixelMonotone(a[i][j], b[i][j], gain, clip);
    }
  }

  /** A clip above 255 turns every band into zeros. */
  lemma BandLargeClip(band: Band, gain: int, clip: int)
    requires clip > 255
    ensures forall i, j :: 0 <= i < |band| && 0 <= j < |band[i]| ==> ProcessBand(band, gain, clip)[i][j] == 0
  {
  }

  /** The red channel is the cross-polarisation value clamped to `[0, 200]`, in the band's shape. */
  lemma RedIsClamp(vh: Band)
    ensures SameShape(Red(vh), vh)
    ensures forall i, j :: 0 <= i < |vh| && 0 <= j < |vh[i]| ==>
      Red(vh)[i][j] == (if vh[i][j] < 0 then 0 else if vh[i][j] > 200 then 200 else vh[i][j])
  {
    forall i, j | 0 <= i < |vh| && 0 <= j < |vh[i]|
      ensures Red(vh)[i][j] == (if vh[i][j] < 0 then 0 else if vh[i][j] > 200 then 200 else vh[i][j])
    {
      PixelFactorOne(vh[i][j], 1, 200);
    }
  }

  /** The blue channel is the co-polarisation value clamped to `[0, 250]`, in the band's shape. */
  lemma BlueIsClamp(vv: Band)
    ensures SameShape(Blue(vv), vv)
    ensures forall i, j :: 0 <= i < |vv| && 0 <= j < |vv[i]| ==>
      Blue(vv)[i][j] == (if vv[i][j] < 0 then 0 else if vv[i][j] > 250 then 250 else vv[i][j])
  {
    forall i, j | 0 <= i < |vv| && 0 <= j < |vv[i]|
      ensures Blue(vv)[i][j] == (if vv[i][j] < 0 then 0 else if vv[i][j] > 250 then 250 else vv[i][j])
    {
      PixelFactorOne(vv[i][j], 1, 250);
    }
  }

  /** A one-pixel band of value 100 stays 100 in both linear channels. */
  lemma HundredPassesThrough()
    ensures Red([[100]]) == [[100]]
    ensures Blue([[100]]) == [[100]]
  {
    RedIsClamp([[100]]);
    BlueIsClamp([[100]]);
    assert Red([[100]])[0] == [100];
    assert Blue([[100]])[0] == [100];
  }
}

=== FILE: reconcile.dfy ===
/**
 * The clean-up at the end of `fetch`: every regular file in the destination
 * directory whose stem (the text before its first '.') is not a uuid selected
 * for fetching is removed.
 */
module Reconcile {

  /** One name returned by listing the destination directory, and whether it is a regular file. */
  datatype DirEntry = DirEntry(name: string, isFile: bool)

  type Listing = seq<DirEntry>

  /** `name.split(".")[0]`: the longest prefix of `name` without a '.'. */
  function Stem(name: string): (s: string)
    ensures s <= name
    ensures '.' !in s
    ensures |s| < |name| ==> name[|s|] == '.'
  {
    if |name| == 0 || name[0] == '.' then "" else [name[0]] + Stem(name[1..])
  }

  /** The stems of the regular files in the listing. */
  function ExistingStems(listing: Listing): (r: set<string>)
    ensures forall s :: s in r <==> exists e :: e in listing && e.isFile && Stem(e.name) == s
    ensures forall s :: s in r ==> '.' !in s
  {
    set e | e in listing && e.isFile :: Stem(e.name)
  }

  /**
   * The names handed to the removal call, `existing - to_fetch`: stems of
   * regular files that are not selected for fetching.
   */
  function StaleStems(listing: Listing, toFetch: set<string>): (r: set<string>)
    ensures r !! toFetch
    ensures forall s :: s in r <==> s !in toFetch && exists e :: e in listing && e.isFile && Stem(e.name) == s
  {
    ExistingStems(listing) - toFetch
  }

  /**
   * The converted file for a uuid is named `uuid + ".tif"`; its stem is the
   * uuid again, provided the uuid itself has no '.'.
   */
  lemma {:induction false} StemOfOutputName(uuid: string)
    requires '.' !in uuid
    ensures Stem(uuid + ".tif") == uuid
  {
    if |uuid| > 0 {
      assert (uuid + ".tif")[1..] == uuid[1..] + ".tif";
      StemOfOutputName(uuid[1..]);
    } else {
      assert (uuid + ".tif")[0] == '.';
    }
  }

  /**
   * The output file `uuid.tif` of a selected uuid is never targeted, while
   * that of an unselected uuid is.
   */
  lemma OutputFileFate(listing: Listing, toFetch: set<string>, uuid: string)
    requires '.' !in uuid
    requires DirEntry(uuid + ".tif", true) in listing
    ensures uuid in StaleStems(listing, toFetch) <==> uuid !in toFetch
  {
    StemOfOutputName(uuid);
  }

  /** Directories in the listing never contribute a name to remove. */
  lemma DirectoriesIgnored(listing: Listing, toFetch: set<string>, s: string)
    requires forall e :: e in listing && Stem(e.name) == s ==> !e.isFile
    ensures s !in StaleStems(listing, toFetch)
  {
  }

  /**
   * The removal joins the directory with the bare stem, so a stale file
   * `old.tif` leads to the removal of `old`, a name the directory does not
   * hold.
   */
  lemma StaleStemIsNotAFile()
    ensures "old" in StaleStems([DirEntry("old.tif", true)], {})
    ensures forall e :: e in [DirEntry("old.tif", true)] ==> e.name != "old"
  {
    var listing := [DirEntry("old.tif", true)];
    StemOfOutputName("old");
    assert "old" + ".tif" == "old.tif";
    assert listing[0] in listing;
    assert "old" in ExistingStems(listing);
  }

  /**
   * The names of the regular files to remove: those whose stem is not
   * selected for fetching. Each is a file present in the directory.
   */
  function StaleFiles(listing: Listing, toFetch: set<string>): (r: set<string>)
    ensures forall n :: n in r <==> exists e :: e in listing && e.isFile && e.name == n && Stem(n) !in toFetch
    ensures forall n :: n in r ==> Stem(n) in StaleStems(listing, toFetch)
  {
    set e | e in listing && e.isFile && Stem(e.name) !in toFetch :: e.name
  }

  /**
   * The files removed by `StaleFiles` have exactly the stale stems, so the
   * corrected removal deletes what the stale-stem computation intends.
   */
  lemma StaleFilesCoverStaleStems(listing: Listing, toFetch: set<string>)
    ensures (set n | n in StaleFiles(listing, toFetch) :: Stem(n)) == StaleStems(listing, toFetch)
  {
    var stems := set n | n in StaleFiles(listing, toFetch) :: Stem(n);
    forall s | s in StaleStems(listing, toFetch) ensures s in stems {
      var e :| e in listing && e.isFile && Stem(e.name) == s;
      assert e.name in StaleFiles(listing, toFetch);
    }
  }
}

=== FILE: wrappers.dfy ===
/** Option and Result values shared by the other modules. */
module Wrappers {

  /** A value that may be missing: a query with no row, a parser that rejects its input. */
  datatype Option<+T> = None | Some(value: T)

  /** The outcome of an operation that either produces a value or raises an error. */
  datatype Result<+T, +E> = Ok(value: T) | Err(error: E)
}
